=== FILE: README.md ===
# labeldoc: undo/redo engine, user actions and page navigation in Dafny

This project models the command layer of labeldoc, a PyQt document-annotation tool.
It has two parts:

- **Actions and their manager.** A `UserAction` has a description, a `can_undo`
  flag and a `track_undo` flag. Its variants are pan, zoom, initial zoom,
  zoom-to-fit-page, zoom-to-fit-width and draw-shape. The `ActionManager` keeps an
  undo stack, a redo stack, an append-only log of strings and a `track_all` switch.
- **Page navigation.** The `DocumentModel` holds the pages, the shapes saved for
  each page index and the current index. The `AppController` moves between pages
  and saves and reloads the shapes on show in the view.

Modules: one per modelled source file, plus helper modules (`Wrappers`, `Decimal`) and one for laws over several calls (`HistoryLaws`):

| module | file | models |
|---|---|---|
| `Wrappers` | wrappers.dfy | `Option` and `Result` |
| `Decimal` | decimal.dfy | Python's `str(int)` and the parser that inverts it |
| `CanvasState` | canvas.dfy | the canvas state and the calls actions make on it |
| `UserActions` | user_action.dfy | `UserAction`: flags, `execute`/`undo`/`redo`, `undo_not_supported` |
| `CanvasActions` | canvas_actions.dfy | `qpoint_to_str`, the pan and zoom actions |
| `ShapeActions` | shape_actions.dfy | `DrawShapeAction` |
| `ActionManager` | action_manager.dfy | `ActionManager` |
| `HistoryLaws` | history_laws.dfy | laws over several manager calls |
| `Documents` | document_model.dfy | `DocumentModel` |
| `AppController` | app_controller.dfy | `AppController` and the view state it touches |

How the model represents the source:

- **Canvas calls.** The canvas methods the actions call have bodies outside this
  model. So `Execute`, `Undo` and `Redo` return the *sequence of canvas calls* an
  action makes (`CanvasCall`). `PerformAll` interprets that sequence through
  `CanvasOps`, a record of function-valued parameters standing for `pan`,
  `set_zoom_level`, `update_min_zoom_level`, `add_shape`, `remove_shape` and the
  `calculate_*` methods.
- **Exceptions.** A manager call returns a `Step`: the manager afterwards, the canvas
  calls made, and the exception raised, if any. `undo`/`redo` pop before the action
  runs, so the `Step` keeps that pop when the action raises.
- **Zoom values.** These are `real`. How Python renders a float inside an f-string is
  the parameter `fmt`. Integers in `qpoint_to_str` are rendered by `Decimal.IntToString`.
- **Identity.** Shapes are `Shape(id, repr)`, where `repr` is `str(shape)`. Pages
  are opaque `Page(id)` handles.

## Model

| member | source | states |
|---|---|---|
| Decimal.IntToString | labeldoc/actions/canvas_actions.py:5 | `str(n)` is non-empty and starts with '-' exactly when n is negative |
| Decimal.IntRoundTrip | labeldoc/actions/canvas_actions.py:5 | every integer is recovered from its decimal rendering by `ParseInt` |
| Decimal.IntToStringInjective | labeldoc/actions/canvas_actions.py:5 | distinct integers render to distinct strings |
| CanvasActions.QPointToStr | labeldoc/actions/canvas_actions.py:4-5 | the text is "(", the decimal x, ", ", the decimal y, ")", each part at a fixed position |
| CanvasActions.QPointToStrInjective | labeldoc/actions/canvas_actions.py:4-5 | "(x, y)" determines the point: equal renderings mean equal points |
| CanvasState.Perform | labeldoc/actions/canvas_actions.py:21-24 | the repaint request changes no state; the direct `offset -= delta` write moves the offset by -delta and touches nothing else |
| UserActions.NewAction | labeldoc/actions/base_action.py:2-5 | the description is kept verbatim and both flags default to true |
| UserActions.NewUserAction | labeldoc/actions/base_action.py:1-5 | a bare `UserAction` keeps its description and flags |
| UserActions.Execute | labeldoc/actions/base_action.py:7-8 | execute raises NotImplementedError exactly for the base class; every variant makes at least one canvas call |
| UserActions.Undo | labeldoc/actions/base_action.py:10-11 | undo raises NotImplementedError exactly for the base class and InitialZoomAction, whatever `can_undo` says; an action that can be undone can also be executed |
| UserActions.Redo | labeldoc/actions/base_action.py:13-14 | redo makes exactly the calls execute makes and raises exactly when execute raises |
| UserActions.UndoNotSupported | labeldoc/actions/base_action.py:16-17 | always raises NotImplementedError; the message is the fixed prefix, then the description in double quotes, which can be read back out of it |
| CanvasActions.NewPanAction | labeldoc/actions/canvas_actions.py:9-15 | the delta end - start is fixed at construction; the description renders both points; untracked and undoable |
| CanvasActions.PanUndoBypassesPan | labeldoc/actions/canvas_actions.py:17-28 | execute pans by the delta; undo subtracts the delta from the panned offset without calling pan and then requests a repaint; redo pans again; undo restores the canvas when pan is exact |
| CanvasActions.NewZoomAction | labeldoc/actions/canvas_actions.py:33-37 | keeps old and new zoom; description "Zoom from old to new"; untracked |
| CanvasActions.ZoomUndoRestores | labeldoc/actions/canvas_actions.py:39-43 | execute and redo set the new zoom, undo sets the old one; undo after execute gives back the canvas when set_zoom_level is exact |
| CanvasActions.NewInitialZoomAction | labeldoc/actions/canvas_actions.py:46-50 | the target zoom is asked of the canvas at construction; neither undoable nor tracked |
| CanvasActions.InitialZoomCalls | labeldoc/actions/canvas_actions.py:52-54 | execute updates the minimum zoom and then sets the captured zoom; undo raises |
| CanvasActions.GetCanvasAttribute | labeldoc/actions/canvas_actions.py:59 | reading `self.canvas` succeeds exactly when the attribute has been assigned, and otherwise raises AttributeError |
| CanvasActions.NewZoomToFitPageAsWritten | labeldoc/actions/canvas_actions.py:57-63 | as written: constructing the action always fails with AttributeError |
| CanvasActions.NewZoomToFitWidthAsWritten | labeldoc/actions/canvas_actions.py:72-78 | as written: constructing the action always fails with AttributeError |
| CanvasActions.ZoomToFitPageAsWrittenRaises | labeldoc/actions/canvas_actions.py:57-60 | the fit-to-page constructor as written raises AttributeError for every canvas |
| CanvasActions.ZoomToFitWidthAsWrittenRaises | labeldoc/actions/canvas_actions.py:72-75 | the fit-to-width constructor as written raises AttributeError for every canvas |
| CanvasActions.NewZoomToFitPageAction | labeldoc/actions/canvas_actions.py:57-63 | corrected: old zoom is the canvas's, new zoom is its fit-to-page zoom; untracked |
| CanvasActions.NewZoomToFitWidthAction | labeldoc/actions/canvas_actions.py:72-78 | corrected: old zoom is the canvas's, new zoom is its fit-to-width zoom; untracked |
| CanvasActions.ZoomToFitPageCorrected | labeldoc/actions/canvas_actions.py:56-69 | the as-written constructor fails; the corrected action reaches the fit zoom and its undo restores the canvas |
| CanvasActions.ZoomToFitWidthCorrected | labeldoc/actions/canvas_actions.py:71-84 | the same for fit-to-width |
| ShapeActions.NewDrawShapeAction | labeldoc/actions/shape_actions.py:4-8 | description "Draw shape: " + str(shape); undoable and tracked by default |
| ShapeActions.DrawShapeUndoRedo | labeldoc/actions/shape_actions.py:10-14 | execute adds, undo removes and redo re-adds the same shape; undo inverts execute when remove undoes add |
| ActionManager.NewManager | labeldoc/actions/action_manager.py:2-6 | both stacks and the log start empty; `track_all` defaults to false |
| ActionManager.DoAction | labeldoc/actions/action_manager.py:8-13 | executes once; a tracked action (by itself or by track_all) is pushed and the redo stack is cleared, otherwise both stacks are untouched; "Executed: d" is logged; a raising execute changes nothing |
| ActionManager.Undo | labeldoc/actions/action_manager.py:15-20 | empty undo stack: nothing changes; otherwise the top is popped; on success it moves to the redo stack and "Undone: d" is logged; on failure it is lost and nothing is logged |
| ActionManager.Redo | labeldoc/actions/action_manager.py:22-27 | the mirror of undo, replaying the top of the redo stack and logging "Redone: d" |
| ActionManager.PrintActionLog | labeldoc/actions/action_manager.py:29-36 | prints the empty-log marker alone, or exactly a blank line, the header and then the log entries in order |
| HistoryLaws.UndoThenRedoRestores | labeldoc/actions/action_manager.py:15-27 | a successful undo then redo restores both stacks, logs both entries and replays execute's calls |
| HistoryLaws.RedoThenUndoRestores | labeldoc/actions/action_manager.py:15-27 | a successful redo then undo restores both stacks and logs both entries |
| HistoryLaws.UndoRedoConserveHistory | labeldoc/actions/action_manager.py:15-27 | undo/redo keep the total of both stacks unless the action raised (then it drops by one); the log grows by one exactly when a non-empty stack was served without a raise |
| HistoryLaws.RunLogAppendOnly | labeldoc/actions/action_manager.py:8-27 | over any request sequence the old log is a prefix of the new one, growing by at most one entry per request |
| HistoryLaws.HandlePreservesTrackedOnly | labeldoc/actions/action_manager.py:8-27 | without track_all, one request keeps every stacked action a tracking one |
| HistoryLaws.RunPreservesTrackedOnly | labeldoc/actions/action_manager.py:8-27 | the same over any request sequence |
| HistoryLaws.NoActionReachesStacksUntracked | labeldoc/actions/action_manager.py:10-12 | from a fresh manager no untracked action (every navigation action) ever reaches either stack |
| HistoryLaws.RedoAfterTrackedIsNoOp | labeldoc/actions/action_manager.py:10-12 | after a tracked action runs there is nothing to redo |
| HistoryLaws.InitialZoomLostOnUndo | labeldoc/actions/action_manager.py:15-20 | with track_all, undoing an InitialZoom raises and the action ends up on neither stack |
| HistoryLaws.CanUndoIgnoredByDo | labeldoc/actions/action_manager.py:8-13 | do_action behaves the same whatever can_undo says |
| HistoryLaws.CanUndoIgnoredByUndo | labeldoc/actions/action_manager.py:15-20 | undo behaves the same whatever the top action's can_undo says |
| HistoryLaws.DrawShapeDoUndoRedo | labeldoc/actions/shape_actions.py:10-14 | draw, undo, redo from any history: add, remove, add of the same shape, with the undo stack restored and only the drawing pending redo after the undo |
| HistoryLaws.DrawTwoUndoTwoRedoTwo | labeldoc/actions/action_manager.py:8-27 | two draws, two undos and two redos on a fresh manager: the stack contents at each stage and the six canvas calls in order |
| HistoryLaws.DrawTwoCanvas | labeldoc/actions/shape_actions.py:10-14 | the canvas through those six calls: both shapes, one, none, both again |
| Documents.NewDocumentModel | labeldoc/models/document_model.py:6-9 | no pages, no annotations, index 0 |
| Documents.SplitDocumentIntoPages | labeldoc/models/document_model.py:16-19 | the opened image is the single page |
| Documents.LoadDocument | labeldoc/models/document_model.py:11-14 | the new document's page is shown from index 0; the saved annotations are kept |
| Documents.GetCurrentPage | labeldoc/models/document_model.py:21-22 | None exactly for a document without pages, otherwise the page at the index (with Python's negative indexing) |
| Documents.AnnotationsAt | labeldoc/models/document_model.py:25 | `annotations.get(i, [])`: the saved entry for `i` when there is one, otherwise no shapes |
| Documents.GetCurrentAnnotations | labeldoc/models/document_model.py:24-25 | the shapes saved under the current index, or no shapes when nothing was saved there |
| Documents.SaveAnnotations | labeldoc/models/document_model.py:27-29 | the entry for the index holds the shapes; every other entry, the pages and the index are unchanged |
| Documents.NextPage | labeldoc/models/document_model.py:31-34 | advances by one only while a later page exists, otherwise changes nothing |
| Documents.PrevPage | labeldoc/models/document_model.py:36-39 | steps back by one only while the index is positive, otherwise changes nothing |
| Documents.FirstPage | labeldoc/models/document_model.py:41-43 | only the index changes, and it is then the first page |
| Documents.LastPage | labeldoc/models/document_model.py:45-47 | only the index changes; it names the last page, or is -1 without pages |
| Documents.IsFirstPage | labeldoc/models/document_model.py:49-51 | on the first page prev_page stays put, and with pages the page shown is the first one |
| Documents.IsLastPage | labeldoc/models/document_model.py:53-55 | on the last page next_page stays put; with pages the page shown is the last one, without pages the index is -1 |
| Documents.SaveThenGet | labeldoc/models/document_model.py:24-29 | shapes saved under the current index are what get_current_annotations returns |
| Documents.NavigationKeepsInBounds | labeldoc/models/document_model.py:31-47 | with pages, every navigation keeps the index on a page |
| Documents.ModelOperationsKeepReachable | labeldoc/models/document_model.py:11-47 | every model operation keeps a reachable state reachable; reachable states never make get_current_page raise |
| Documents.NextPrevInverse | labeldoc/models/document_model.py:31-39 | next then prev (and prev then next) return to the same model when the first step moves |
| Documents.GuardsMatchPredicates | labeldoc/models/document_model.py:31-55 | next_page stays put exactly on the last page, prev_page exactly on the first; first_page/last_page satisfy is_first_page/is_last_page |
| AppController.LoadPage | labeldoc/views/main_view.py:106-109 | the shapes are replaced by the annotations; a missing image leaves the old one on show |
| AppController.UpdateView | labeldoc/controllers/app_controller.py:42-45 | shows the current page and the shapes saved for the current index; the model is unchanged |
| AppController.SaveAnnotations | labeldoc/controllers/app_controller.py:15-18 | the view's shapes are saved under the current index; nothing else changes |
| AppController.LoadDocument | labeldoc/controllers/app_controller.py:11-13 | shows page 0 of the new document with what is saved for index 0, without saving the shapes on show |
| AppController.NextPage | labeldoc/controllers/app_controller.py:20-24 | on the last page nothing happens; otherwise it saves under the old index, steps forward and shows the new index's page image and saved shapes |
| AppController.PreviousPage | labeldoc/controllers/app_controller.py:26-30 | the mirror of next_page, guarded by is_first_page: saves, steps back, shows the new index's page image and saved shapes |
| AppController.FirstPage | labeldoc/controllers/app_controller.py:32-35 | always saves, then shows page 0's image (if there are pages) with the shapes saved for index 0 |
| AppController.LastPage | labeldoc/controllers/app_controller.py:37-40 | always saves, then shows the last page's image (if there are pages) with the shapes saved for the last index |
| AppController.NextThenPreviousRestoresView | labeldoc/controllers/app_controller.py:20-30 | next then previous, both moving, restore the page and shapes on show and leave them saved under the original index |
| AppController.PreviousThenNextRestoresView | labeldoc/controllers/app_controller.py:20-30 | previous then next keeps the pages and does the same |
| AppController.StayingPutKeepsShapes | labeldoc/controllers/app_controller.py:32-40 | first_page on the first page, or last_page on the last, gives back the shapes on show |
| AppController.CommandKeepsReachable | labeldoc/controllers/app_controller.py:11-45 | from a reachable model every controller operation is defined and keeps the model reachable |
| AppController.Drive | labeldoc/controllers/app_controller.py:11-45 | any sequence of controller operations from a reachable model stays reachable |

## Left out

- Canvas internals are left out. `pan`, `set_zoom_level`, `update_min_zoom_level`, `add_shape`, `remove_shape` and the `calculate_*` methods belong to the canvas widget, which is not part of this model. Their effects are parameters (`CanvasOps`). Laws such as "undo restores the canvas" are proved under stated exactness premises (`SetsZoomExactly`, `PansExactly`, remove undoes add).
- CanvasState.CanvasOps: canvas calls are assumed to return normally. Its fields are total functions, so no `pan`, `set_zoom_level`, `update_min_zoom_level`, `add_shape` or `remove_shape` call can raise. `ActionManager.Undo` and `ActionManager.Redo` therefore decide success from the action's class alone. In the source, an exception from a canvas call escapes `action.undo()`/`action.redo()` after the pop (labeldoc/actions/action_manager.py:17-18, 24-25), so the action ends up on neither stack and nothing is logged. One such case: undoing a drawing after the canvas's shape list was replaced by a page change, if `remove_shape` uses `list.remove`. The `raised == None` conclusions of `HistoryLaws.DrawShapeDoUndoRedo` and `HistoryLaws.DrawTwoUndoTwoRedoTwo` rest on this assumption.
- The viewport transform (image/screen mapping, bounds and aspect ratio) lives in the canvas widget and is not part of this model.
- `canvas.update()` is a Qt repaint request. It is modelled as changing no model state.
- Float formatting: `str()` of a float zoom is the parameter `fmt`, not a model of Python's shortest-repr algorithm.
- QPoint coordinates are unbounded integers. Qt's 32-bit `int` overflow in `end_pos - start_pos` is not modelled.
- Object identity and aliasing are not modelled. Actions, shapes and lists are values, so "the stacks never share an Action instance" has no counterpart.
- List aliasing between the document and the canvas is not modelled. `save_annotations` (labeldoc/controllers/app_controller.py:17-18) stores the canvas's own `shapes` list in `DocumentModel.annotations[i]`. `load_annotations` (labeldoc/widgets/canvas.py:20-22) installs the stored list itself as `CanvasWidget.shapes`. After a save, or a load of an index that has a saved entry, the saved entry and the shapes on show are one list. Loading an index with nothing saved installs a fresh empty list, which is in no entry. If `add_shape` appends in place, drawing on such a page also changes the saved entry, without any save. In the model the saved entry changes only through `SaveAnnotations`.
- Qt widgets, PIL images, `Image.open` and `pil_to_qimage` are left out. A page is an opaque `Page`, and the opened image is the only page.
- Documents.GetCurrentPage: requires an index Python can use, so the IndexError path is not modelled. `Reachable` covers every state the operations can produce (`ModelOperationsKeepReachable`, `CommandKeepsReachable`), and no reachable state hits that path.
- AppController.NextPage: requires the stepped model to index validly. The same holds for AppController.PreviousPage and AppController.UpdateView. Every reachable state meets these preconditions.
- Exceptions propagate out of a sequence of requests in the model (`HistoryLaws.Run` stops at the first one). PyQt's handling of an exception escaping a slot is not modelled.
- The `print` calls of `print_action_log` are modelled as a list with one element per `print` call. An entry whose text contains a newline prints as several lines but is one element.
- Log completeness: the code logs nothing for `undo`/`redo` on an empty stack, or when the action's undo or redo raises. So the log does not count every call. The model follows the code (`UndoRedoConserveHistory`).
- Unsupported undo: `InitialZoomAction` does not override `undo`, so undoing it raises the base class's bare NotImplementedError. It does not go through `undo_not_supported`, which nothing calls. The model follows the code.
- The window, toolbar, web view, themes and status-bar messages are outside the modelled core.

## Findings

| source | as written | input that shows it | evidently intended | confidence | as-written member | corrected member |
|---|---|---|---|---|---|---|
| labeldoc/actions/canvas_actions.py:57-63 | `ZoomToFitPageAction.__init__` reads `self.canvas.calculate_zoom_to_fit_page()` before `self.canvas = canvas` is assigned, so it raises AttributeError | any canvas: `ZoomToFitPageAction(canvas)` | ask the `canvas` argument for the fit-to-page zoom | high; not executed | CanvasActions.ZoomToFitPageAsWrittenRaises | CanvasActions.ZoomToFitPageCorrected |
| labeldoc/actions/canvas_actions.py:72-78 | `ZoomToFitWidthAction.__init__` reads `self.canvas.calculate_zoom_to_fit_width()` before `self.canvas` is assigned, so it raises AttributeError | any canvas: `ZoomToFitWidthAction(canvas)` | ask the `canvas` argument for the fit-to-width zoom | high; not executed | CanvasActions.ZoomToFitWidthAsWrittenRaises | CanvasActions.ZoomToFitWidthCorrected |

=== FILE: action_manager.dfy ===
/** The undo/redo engine: an undo stack, a redo stack (tops are the last elements, as
    with Python's list append/pop), an append-only log of strings and the `track_all`
    flag. Each call returns a Step: the manager afterwards, the canvas calls the action
    made, and the exception it raised, if any. A raised exception leaves every change
    made before it in place, as in the source. */
module ActionManager {
  import opened Wrappers
  import opened CanvasState
  import opened UserActions

  datatype Manager = Manager(undoStack: seq<Action>, redoStack: seq<Action>,
                             actionLog: seq<string>, trackAll: bool)

  datatype Step = Step(manager: Manager, calls: seq<CanvasCall>, raised: Option<Error>)

  /** ActionManager(track_all=False): empty history. */
  function NewManager(trackAll: bool := false): (m: Manager)
    ensures m.undoStack == [] && m.redoStack == [] && m.actionLog == []
    ensures m.trackAll == trackAll
  {
    Manager([], [], [], trackAll)
  }

  function Top(stack: seq<Action>): Action
    requires |stack| > 0
  {
    stack[|stack| - 1]
  }

  function Pop(stack: seq<Action>): seq<Action>
    requires |stack| > 0
  {
    stack[..|stack| - 1]
  }

  /** do_action: execute once; if the action is tracked (by itself or by `track_all`)
      push it and drop the redo history, otherwise leave both stacks alone; log
      "Executed: ...". An action whose `execute` raises changes nothing. */
  function DoAction(m: Manager, a: Action): (s: Step)
    ensures Execute(a).Failure? ==> s == Step(m, [], Some(Execute(a).error))
    ensures Execute(a).Success? ==>
      && s.raised == None
      && s.calls == Execute(a).value
      && s.manager.actionLog == m.actionLog + ["Executed: " + a.description]
      && s.manager.trackAll == m.trackAll
      && ((a.trackUndo || m.trackAll) ==>
            s.manager.undoStack == m.undoStack + [a] && s.manager.redoStack == [])
      && (!(a.trackUndo || m.trackAll) ==>
            s.manager.undoStack == m.undoStack && s.manager.redoStack == m.redoStack)
  {
    match Execute(a)
    case Failure(e) => Step(m, [], Some(e))
    case Success(calls) =>
      var m1 := if a.trackUndo || m.trackAll then m.(undoStack := m.undoStack + [a], redoStack := [])
                else m;
      Step(m1.(actionLog := m.actionLog + ["Executed: " + a.description]), calls, None)
  }

  /** undo: nothing at all on an empty undo stack. Otherwise pop the top first, then undo
      it; on success push it on the redo stack and log "Undone: ...". If the action's
      undo raises, it has already been popped: it ends up on neither stack and nothing
      is logged. */
  function Undo(m: Manager): (s: Step)
    ensures |m.undoStack| == 0 ==> s == Step(m, [], None)
    ensures |m.undoStack| > 0 ==>
      var a := m.undoStack[|m.undoStack| - 1];
      && s.manager.undoStack == m.undoStack[..|m.undoStack| - 1]
      && s.manager.trackAll == m.trackAll
      && (UserActions.Undo(a).Success? ==>
            && s.manager.redoStack == m.redoStack + [a]
            && s.manager.actionLog == m.actionLog + ["Undone: " + a.description]
            && s.calls == UserActions.Undo(a).value && s.raised == None)
      && (UserActions.Undo(a).Failure? ==>
            && s.manager.redoStack == m.redoStack
            && s.manager.actionLog == m.actionLog
            && s.calls == [] && s.raised == Some(UserActions.Undo(a).error))
  {
    if |m.undoStack| == 0 then Step(m, [], None)
    else
      var a := Top(m.undoStack);
      var popped := m.(undoStack := Pop(m.undoStack));
      match UserActions.Undo(a)
      case Failure(e) => Step(popped, [], Some(e))
      case Success(calls) =>
        Step(popped.(redoStack := m.redoStack + [a],
                     actionLog := m.actionLog + ["Undone: " + a.description]), calls, None)
  }

  /** redo: the mirror image of undo, replaying with the action's `redo`. */
  function Redo(m: Manager): (s: Step)
    ensures |m.redoStack| == 0 ==> s == Step(m, [], None)
    ensures |m.redoStack| > 0 ==>
      var a := m.redoStack[|m.redoStack| - 1];
      && s.manager.redoStack == m.redoStack[..|m.redoStack| - 1]
      && s.manager.trackAll == m.trackAll
      && (UserActions.Redo(a).Success? ==>
            && s.manager.undoStack == m.undoStack + [a]
            && s.manager.actionLog == m.actionLog + ["Redone: " + a.description]
            && s.calls == UserActions.Redo(a).value && s.raised == None)
      && (UserActions.Redo(a).Failure? ==>
            && s.manager.undoStack == m.undoStack
            && s.manager.actionLog == m.actionLog
            && s.calls == [] && s.raised == Some(UserActions.Redo(a).error))
  {
    if |m.redoStack| == 0 then Step(m, [], None)
    else
      var a := Top(m.redoStack);
      var popped := m.(redoStack := Pop(m.redoStack));
      match UserActions.Redo(a)
      case Failure(e) => Step(popped, [], Some(e))
      case Success(calls) =>
        Step(popped.(undoStack := m.undoStack + [a],
                     actionLog := m.actionLog + ["Redone: " + a.description]), calls, None)
  }

  const LogHeader := "=== USER ACTION LOG ==="
  const LogEmpty := "=== USER ACTION LOG EMPTY ==="

  /** print_action_log, as the lines it prints: the empty-log marker alone, or a blank
      line, the header and then every entry in order. */
  method PrintActionLog(m: Manager) returns (lines: seq<string>)
    ensures |m.actionLog| == 0 ==> lines == [LogEmpty]
    ensures |m.actionLog| > 0 ==> lines == ["", LogHeader] + m.actionLog
  {
    if |m.actionLog| > 0 {
      lines := ["", LogHeader];
      var i := 0;
      while i < |m.actionLog|
        invariant 0 <= i <= |m.actionLog|
        invariant lines == ["", LogHeader] + m.actionLog[..i]
      {
        lines := lines + [m.actionLog[i]];
        i := i + 1;
      }
      assert m.actionLog[..i] == m.actionLog;
    } else {
      lines := [LogEmpty];
    }
  }
}

=== FILE: app_controller.dfy ===
/** The controller between the document model and the view. The view is reduced to
    what the controller touches: the image it shows and its current shapes, which
    `load_page` overwrites. */
module AppController {
  import opened Wrappers
  import opened CanvasState
  import opened Documents

  datatype View = View(image: Option<Page>, shapes: seq<Shape>)

  /** load_page(image, annotations): a missing image leaves the old one on show; the
      shapes are replaced by the annotations. */
  function LoadPage(v: View, image: Option<Page>, annotations: seq<Shape>): (r: View)
    ensures r.shapes == annotations
    ensures image.Some? ==> r.image == image
    ensures image.None? ==> r.image == v.image
  {
    View(if image.Some? then image else v.image, annotations)
  }

  datatype App = App(model: DocumentModel, view: View)

  /** update_view: show the current page and its saved shapes. */
  function UpdateView(app: App): (r: App)
    requires IndexValid(app.model)
    ensures r.model == app.model
    ensures r.view.shapes == AnnotationsAt(app.model, app.model.currentPageIndex)
    ensures InBounds(app.model) ==> r.view.image == Some(app.model.pages[app.model.currentPageIndex])
    ensures |app.model.pages| == 0 ==> r.view.image == app.view.image
  {
    app.(view := LoadPage(app.view, GetCurrentPage(app.model), GetCurrentAnnotations(app.model)))
  }

  /** save_annotations: the view's shapes are stored under the current index. */
  function SaveAnnotations(app: App): (r: App)
    ensures r.view == app.view
    ensures r.model.pages == app.model.pages
    ensures r.model.currentPageIndex == app.model.currentPageIndex
    ensures r.model.annotations == app.model.annotations[app.model.currentPageIndex := app.view.shapes]
  {
    app.(model := Documents.SaveAnnotations(app.model, app.model.currentPageIndex, app.view.shapes))
  }

  /** load_document: go to page 0 of the new document and show what is saved for index
      0. The shapes on show are not saved first. */
  function LoadDocument(app: App, image: Page): (r: App)
    ensures r.model.pages == [image] && r.model.currentPageIndex == 0
    ensures r.model.annotations == app.model.annotations
    ensures r.view == View(Some(image), AnnotationsAt(app.model, 0))
  {
    UpdateView(app.(model := Documents.LoadDocument(app.model, image)))
  }

  /** next_page: on the last page nothing happens at all; otherwise save under the old
      index, step forward, and show the new page with its saved shapes. */
  function NextPage(app: App): (r: App)
    requires IsLastPage(app.model) || IndexValid(Documents.NextPage(app.model))
    ensures IsLastPage(app.model) ==> r == app
    ensures !IsLastPage(app.model) ==>
      var i := app.model.currentPageIndex;
      && r.model.pages == app.model.pages
      && r.model.annotations == app.model.annotations[i := app.view.shapes]
      && r.model.currentPageIndex == (if i < |app.model.pages| - 1 then i + 1 else i)
      && r.view.shapes == AnnotationsAt(r.model, r.model.currentPageIndex)
      && (InBounds(r.model) ==> r.view.image == Some(r.model.pages[r.model.currentPageIndex]))
      && (|app.model.pages| == 0 ==> r.view.image == app.view.image)
  {
    if IsLastPage(app.model) then app
    else
      var saved := SaveAnnotations(app);
      UpdateView(saved.(model := Documents.NextPage(saved.model)))
  }

  /** previous_page: the mirror image, guarded by is_first_page. */
  function PreviousPage(app: App): (r: App)
    requires IsFirstPage(app.model) || IndexValid(Documents.PrevPage(app.model))
    ensures IsFirstPage(app.model) ==> r == app
    ensures !IsFirstPage(app.model) ==>
      var i := app.model.currentPageIndex;
      && r.model.pages == app.model.pages
      && r.model.annotations == app.model.annotations[i := app.view.shapes]
      && r.model.currentPageIndex == (if i > 0 then i - 1 else i)
      && r.view.shapes == AnnotationsAt(r.model, r.model.currentPageIndex)
      && (InBounds(r.model) ==> r.view.image == Some(r.model.pages[r.model.currentPageIndex]))
      && (|app.model.pages| == 0 ==> r.view.image == app.view.image)
  {
    if IsFirstPage(app.model) then app
    else
      var saved := SaveAnnotations(app);
      UpdateView(saved.(model := Documents.PrevPage(saved.model)))
  }

  /** first_page: always saves, even when already on the first page. */
  function FirstPage(app: App): (r: App)
    ensures r.model.pages == app.model.pages && r.model.currentPageIndex == 0
    ensures r.model.annotations == app.model.annotations[app.model.currentPageIndex := app.view.shapes]
    ensures r.view.shapes == AnnotationsAt(r.model, 0)
    ensures |app.model.pages| > 0 ==> r.view.image == Some(app.model.pages[0])
    ensures |app.model.pages| == 0 ==> r.view.image == app.view.image
  {
    var saved := SaveAnnotations(app);
    UpdateView(saved.(model := Documents.FirstPage(saved.model)))
  }

  /** last_page: always saves, even when already on the last page. */
  function LastPage(app: App): (r: App)
    ensures r.model.pages == app.model.pages && IsLastPage(r.model)
    ensures r.model.annotations == app.model.annotations[app.model.currentPageIndex := app.view.shapes]
    ensures r.view.shapes == AnnotationsAt(r.model, |app.model.pages| - 1)
    ensures |app.model.pages| > 0 ==> r.view.image == Some(app.model.pages[|app.model.pages| - 1])
    ensures |app.model.pages| == 0 ==> r.view.image == app.view.image
  {
    var saved := SaveAnnotations(app);
    UpdateView(saved.(model := Documents.LastPage(saved.model)))
  }

  /** Next then previous, when both take effect, puts the view back as it was and leaves
      its shapes saved under the original index. */
  lemma NextThenPreviousRestoresView(app: App)
    requires 0 <= app.model.currentPageIndex < |app.model.pages| - 1
    ensures var r := PreviousPage(NextPage(app));
      && r.model.currentPageIndex == app.model.currentPageIndex
      && r.model.pages == app.model.pages
      && r.view.shapes == app.view.shapes
      && r.view.image == Some(app.model.pages[app.model.currentPageIndex])
      && AnnotationsAt(r.model, app.model.currentPageIndex) == app.view.shapes
  {
    var i := app.model.currentPageIndex;
    var n := NextPage(app);
    assert n.model.currentPageIndex == i + 1;
    assert AnnotationsAt(n.model, i) == app.view.shapes;
  }

  /** Previous then next, when both take effect, does the same. */
  lemma PreviousThenNextRestoresView(app: App)
    requires 0 < app.model.currentPageIndex < |app.model.pages|
    ensures var r := NextPage(PreviousPage(app));
      && r.model.currentPageIndex == app.model.currentPageIndex
      && r.model.pages == app.model.pages
      && r.view.shapes == app.view.shapes
      && r.view.image == Some(app.model.pages[app.model.currentPageIndex])
      && AnnotationsAt(r.model, app.model.currentPageIndex) == app.view.shapes
  {
    var i := app.model.currentPageIndex;
    var p := PreviousPage(app);
    assert p.model.currentPageIndex == i - 1;
    assert AnnotationsAt(p.model, i) == app.view.shapes;
  }

  /** Going to the page already shown saves and reloads the same shapes. */
  lemma StayingPutKeepsShapes(app: App)
    ensures IsFirstPage(app.model) ==> FirstPage(app).view.shapes == app.view.shapes
    ensures IsLastPage(app.model) ==> LastPage(app).view.shapes == app.view.shapes
  {
  }

  /** The requests the view forwards to the controller. */
  datatype Command = Open(image: Page) | Save | Next | Previous | First | Last

  /** From a reachable model every controller operation can run without IndexError and
      leaves the model reachable. */
  lemma CommandKeepsReachable(app: App, cmd: Command)
    requires Reachable(app.model)
    ensures IndexValid(Documents.NextPage(app.model)) && IndexValid(Documents.PrevPage(app.model))
    ensures Reachable(Dispatch(app, cmd).model)
  {
  }

  function Dispatch(app: App, cmd: Command): App
    requires Reachable(app.model)
  {
    match cmd
    case Open(image) => LoadDocument(app, image)
    case Save => SaveAnnotations(app)
    case Next => NextPage(app)
    case Previous => PreviousPage(app)
    case First => FirstPage(app)
    case Last => LastPage(app)
  }

  /** Any sequence of commands from any reachable model: every step is defined (no IndexError
      from get_current_page) and the model stays reachable. */
  function Drive(app: App, cmds: seq<Command>): (r: App)
    requires Reachable(app.model)
    ensures Reachable(r.model)
    decreases |cmds|
  {
    if |cmds| == 0 then app
    else
      CommandKeepsReachable(app, cmds[0]);
      Drive(Dispatch(app, cmds[0]), cmds[1..])
  }
}

=== FILE: canvas.dfy ===
/** The drawing surface the actions act on. Its state is an offset, a zoom level, a
    lower zoom bound and an ordered shape sequence. The methods the actions call (`pan`,
    `set_zoom_level`, `update_min_zoom_level`, `add_shape`, `remove_shape`,
    `calculate_*`) have bodies outside this model, so they are parameters
    (CanvasOps). An action's effect is recorded as the sequence of canvas calls it
    makes (CanvasCall). */
module CanvasState {

  /** A QPoint: integer screen coordinates. */
  datatype Point = Point(x: int, y: int) {
    function Minus(q: Point): Point { Point(x - q.x, y - q.y) }
    function Plus(q: Point): Point { Point(x + q.x, y + q.y) }
  }

  /** A drawn shape. `id` stands for object identity; `repr` is what `str(shape)` gives. */
  datatype Shape = Shape(id: nat, repr: string)

  datatype Canvas = Canvas(offset: Point, zoom: real, minZoom: real, shapes: seq<Shape>)

  /** One call an action makes on its canvas. */
  datatype CanvasCall =
    | Pan(delta: Point)              // canvas.pan(delta)
    | SubtractOffset(delta: Point)   // canvas.offset -= delta
    | SetZoomLevel(zoom: real)       // canvas.set_zoom_level(zoom)
    | UpdateMinZoomLevel             // canvas.update_min_zoom_level()
    | AddShape(shape: Shape)         // canvas.add_shape(shape)
    | RemoveShape(shape: Shape)      // canvas.remove_shape(shape)
    | Update                         // canvas.update(): repaint request

  /** The canvas methods whose bodies are not part of this model. */
  datatype CanvasOps = CanvasOps(
    pan: (Canvas, Point) -> Canvas,
    setZoomLevel: (Canvas, real) -> Canvas,
    updateMinZoomLevel: Canvas -> Canvas,
    addShape: (Canvas, Shape) -> Canvas,
    removeShape: (Canvas, Shape) -> Canvas,
    calculateInitialZoom: Canvas -> real,
    calculateZoomToFitPage: Canvas -> real,
    calculateZoomToFitWidth: Canvas -> real)

  /** The canvas after one call. A repaint request leaves the model state alone, and
      the direct offset write touches the offset and nothing else. */
  function Perform(ops: CanvasOps, c: Canvas, call: CanvasCall): (c': Canvas)
    ensures call.Update? ==> c' == c
    ensures call.SubtractOffset? ==>
      c'.offset == c.offset.Minus(call.delta) && c'.zoom == c.zoom &&
      c'.minZoom == c.minZoom && c'.shapes == c.shapes
  {
    match call
    case Pan(d) => ops.pan(c, d)
    case SubtractOffset(d) => c.(offset := c.offset.Minus(d))
    case SetZoomLevel(z) => ops.setZoomLevel(c, z)
    case UpdateMinZoomLevel => ops.updateMinZoomLevel(c)
    case AddShape(s) => ops.addShape(c, s)
    case RemoveShape(s) => ops.removeShape(c, s)
    case Update => c
  }

  /** The canvas after a sequence of calls, in order. */
  function PerformAll(ops: CanvasOps, c: Canvas, calls: seq<CanvasCall>): Canvas
    decreases |calls|
  {
    if |calls| == 0 then c else PerformAll(ops, Perform(ops, c, calls[0]), calls[1..])
  }

  /** Running a single call is performing it. */
  lemma PerformOne(ops: CanvasOps, c: Canvas, call: CanvasCall)
    ensures PerformAll(ops, c, [call]) == Perform(ops, c, call)
  {
    assert [call][1..] == [];
  }

  /** Running two call sequences one after the other is running their concatenation. */
  lemma {:induction false} PerformAllAppend(ops: CanvasOps, c: Canvas, a: seq<CanvasCall>, b: seq<CanvasCall>)
    ensures PerformAll(ops, c, a + b) == PerformAll(ops, PerformAll(ops, c, a), b)
    decreases |a|
  {
    if |a| == 0 {
      assert a + b == b;
    } else {
      assert (a + b)[1..] == a[1..] + b;
      PerformAllAppend(ops, Perform(ops, c, a[0]), a[1..], b);
    }
  }
}

=== FILE: canvas_actions.dfy ===
/** The navigation actions: pan, zoom, initial zoom and the two fit-to zooms. Every one
    is built with `track_undo = false`. Zoom values are reals; how Python renders a float
    in a description is the parameter `fmt`. */
module CanvasActions {
  import opened Wrappers
  import opened Decimal
  import opened CanvasState
  import opened UserActions

  /** `qpoint_to_str`: "(x, y)": the two coordinates in decimal, in parentheses,
      separated by a comma and a space. */
  function QPointToStr(p: Point): (s: string)
    ensures |s| == |IntToString(p.x)| + |IntToString(p.y)| + 4
    ensures s[0] == '(' && s[|s| - 1] == ')'
    ensures s[1..1 + |IntToString(p.x)|] == IntToString(p.x)
    ensures s[1 + |IntToString(p.x)|..3 + |IntToString(p.x)|] == ", "
    ensures s[3 + |IntToString(p.x)|..|s| - 1] == IntToString(p.y)
  {
    "(" + IntToString(p.x) + ", " + IntToString(p.y) + ")"
  }

  /** Rendering never loses information: the string determines the point. */
  lemma QPointToStrInjective(p: Point, q: Point)
    requires QPointToStr(p) == QPointToStr(q)
    ensures p == q
  {
    var a, b := IntToString(p.x), IntToString(q.x);
    var ya, yb := IntToString(p.y), IntToString(q.y);
    if |a| < |b| {
      NoCommaInIntToString(q.x, |a|);
      ShorterNumberDiffers(a, b, ya, yb);
      assert false;
    } else if |b| < |a| {
      NoCommaInIntToString(p.x, |b|);
      ShorterNumberDiffers(b, a, yb, ya);
      assert false;
    }
    SameLengthParts(a, b, ya, yb);
    IntToStringInjective(p.x, q.x);
    IntToStringInjective(p.y, q.y);
  }

  /** In "(x, y)" the first comma sits right after x, so a rendering whose x is shorter
      cannot equal one whose x is longer. */
  lemma ShorterNumberDiffers(a: string, b: string, ya: string, yb: string)
    requires |a| < |b| && b[|a|] != ','
    ensures "(" + a + ", " + ya + ")" != "(" + b + ", " + yb + ")"
  {
    assert ("(" + a + ", " + ya + ")")[1 + |a|] == ',';
    assert ("(" + b + ", " + yb + ")")[1 + |a|] == b[|a|];
  }

  /** With x parts of equal length, equal renderings have equal parts. */
  lemma SameLengthParts(a: string, b: string, ya: string, yb: string)
    requires |a| == |b| && "(" + a + ", " + ya + ")" == "(" + b + ", " + yb + ")"
    ensures a == b && ya == yb
  {
    var s, t := "(" + a + ", " + ya + ")", "(" + b + ", " + yb + ")";
    assert a == s[1..1 + |a|];
    assert b == t[1..1 + |b|];
    assert ya == s[3 + |a|..|s| - 1];
    assert yb == t[3 + |b|..|t| - 1];
  }

  /** PanAction(canvas, start_pos, end_pos): the delta is fixed here, once. */
  function NewPanAction(startPos: Point, endPos: Point): (a: Action)
    ensures a.kind == PanAction(startPos, endPos, endPos.Minus(startPos))
    ensures a.description == "Pan from " + QPointToStr(startPos) + " to " + QPointToStr(endPos)
    ensures a.canUndo && !a.trackUndo
  {
    NewAction(PanAction(startPos, endPos, endPos.Minus(startPos)),
      "Pan from " + QPointToStr(startPos) + " to " + QPointToStr(endPos), trackUndo := false)
  }

  /** ZoomAction(canvas, old_zoom, new_zoom). */
  function NewZoomAction(oldZoom: real, newZoom: real, fmt: real -> string): (a: Action)
    ensures a.kind == ZoomAction(oldZoom, newZoom)
    ensures a.description == "Zoom from " + fmt(oldZoom) + " to " + fmt(newZoom)
    ensures a.canUndo && !a.trackUndo
  {
    NewAction(ZoomAction(oldZoom, newZoom),
      "Zoom from " + fmt(oldZoom) + " to " + fmt(newZoom), trackUndo := false)
  }

  /** InitialZoomAction(canvas): the target zoom is asked of the canvas at construction,
      and the action declares itself not undoable. */
  function NewInitialZoomAction(ops: CanvasOps, c: Canvas, fmt: real -> string): (a: Action)
    ensures a.kind == InitialZoomAction(ops.calculateInitialZoom(c))
    ensures a.description == "Initial to " + fmt(ops.calculateInitialZoom(c))
    ensures !a.canUndo && !a.trackUndo
  {
    var initialZoom := ops.calculateInitialZoom(c);
    NewAction(InitialZoomAction(initialZoom), "Initial to " + fmt(initialZoom),
      canUndo := false, trackUndo := false)
  }

  /** Attribute lookup of `canvas` on an instance whose attributes so far are `attrs`. */
  function GetCanvasAttribute(className: string, attrs: map<string, Canvas>): (r: Result<Canvas, Error>)
    ensures r.Success? <==> "canvas" in attrs
    ensures r.Success? ==> r.value == attrs["canvas"]
    ensures r.Failure? ==> r.error == AttributeError(NoCanvasMessage(className))
  {
    if "canvas" in attrs then Success(attrs["canvas"])
    else Failure(AttributeError(NoCanvasMessage(className)))
  }

  function NoCanvasMessage(className: string): string {
    "'" + className + "' object has no attribute 'canvas'"
  }

  /** ZoomToFitPageAction(canvas) as written: it asks `self.canvas` for the target zoom
      before `self.canvas` has been assigned. */
  function NewZoomToFitPageAsWritten(ops: CanvasOps, c: Canvas, fmt: real -> string): (r: Result<Action, Error>)
    ensures r.Failure? && r.error.AttributeError?
  {
    var oldZoom := c.zoom;
    var attrs: map<string, Canvas> := map[];
    match GetCanvasAttribute("ZoomToFitPageAction", attrs)
    case Failure(e) => Failure(e)
    case Success(self_canvas) =>
      var newZoom := ops.calculateZoomToFitPage(self_canvas);
      Success(NewAction(ZoomToFitPageAction(oldZoom, newZoom),
        "Zoom to fit page from " + fmt(oldZoom) + " to " + fmt(newZoom), trackUndo := false))
  }

  /** ZoomToFitWidthAction(canvas) as written: same ordering defect. */
  function NewZoomToFitWidthAsWritten(ops: CanvasOps, c: Canvas, fmt: real -> string): (r: Result<Action, Error>)
    ensures r.Failure? && r.error.AttributeError?
  {
    var oldZoom := c.zoom;
    var attrs: map<string, Canvas> := map[];
    match GetCanvasAttribute("ZoomToFitWidthAction", attrs)
    case Failure(e) => Failure(e)
    case Success(self_canvas) =>
      var newZoom := ops.calculateZoomToFitWidth(self_canvas);
      Success(NewAction(ZoomToFitWidthAction(oldZoom, newZoom),
        "Zoom to fit width from " + fmt(oldZoom) + " to " + fmt(newZoom), trackUndo := false))
  }

  /** Constructing ZoomToFitPageAction as written raises AttributeError on every canvas. */
  lemma ZoomToFitPageAsWrittenRaises(ops: CanvasOps, c: Canvas, fmt: real -> string)
    ensures NewZoomToFitPageAsWritten(ops, c, fmt) ==
      Failure(AttributeError(NoCanvasMessage("ZoomToFitPageAction")))
  {
  }

  /** Constructing ZoomToFitWidthAction as written raises AttributeError on every canvas. */
  lemma ZoomToFitWidthAsWrittenRaises(ops: CanvasOps, c: Canvas, fmt: real -> string)
    ensures NewZoomToFitWidthAsWritten(ops, c, fmt) ==
      Failure(AttributeError(NoCanvasMessage("ZoomToFitWidthAction")))
  {
  }

  /** ZoomToFitPageAction(canvas) with the target read from the `canvas` argument. */
  function NewZoomToFitPageAction(ops: CanvasOps, c: Canvas, fmt: real -> string): (a: Action)
    ensures a.kind == ZoomToFitPageAction(c.zoom, ops.calculateZoomToFitPage(c))
    ensures a.description ==
      "Zoom to fit page from " + fmt(c.zoom) + " to " + fmt(ops.calculateZoomToFitPage(c))
    ensures a.canUndo && !a.trackUndo
  {
    var oldZoom := c.zoom;
    var newZoom := ops.calculateZoomToFitPage(c);
    NewAction(ZoomToFitPageAction(oldZoom, newZoom),
      "Zoom to fit page from " + fmt(oldZoom) + " to " + fmt(newZoom), trackUndo := false)
  }

  /** ZoomToFitWidthAction(canvas) with the target read from the `canvas` argument. */
  function NewZoomToFitWidthAction(ops: CanvasOps, c: Canvas, fmt: real -> string): (a: Action)
    ensures a.kind == ZoomToFitWidthAction(c.zoom, ops.calculateZoomToFitWidth(c))
    ensures a.description ==
      "Zoom to fit width from " + fmt(c.zoom) + " to " + fmt(ops.calculateZoomToFitWidth(c))
    ensures a.canUndo && !a.trackUndo
  {
    var oldZoom := c.zoom;
    var newZoom := ops.calculateZoomToFitWidth(c);
    NewAction(ZoomToFitWidthAction(oldZoom, newZoom),
      "Zoom to fit width from " + fmt(oldZoom) + " to " + fmt(newZoom), trackUndo := false)
  }

  /** The corrected fit-to-page constructor succeeds where the as-written one raises,
      and the action it builds restores the zoom it found when `set_zoom_level` is exact. */
  lemma ZoomToFitPageCorrected(ops: CanvasOps, c: Canvas, fmt: real -> string)
    requires SetsZoomExactly(ops, c, ops.calculateZoomToFitPage(c))
    requires SetsZoomExactly(ops, c.(zoom := ops.calculateZoomToFitPage(c)), c.zoom)
    ensures NewZoomToFitPageAsWritten(ops, c, fmt).Failure?
    ensures var a := NewZoomToFitPageAction(ops, c, fmt);
      var c1 := PerformAll(ops, c, Execute(a).value);
      c1.zoom == ops.calculateZoomToFitPage(c) && PerformAll(ops, c1, Undo(a).value) == c
  {
    var a := NewZoomToFitPageAction(ops, c, fmt);
    ZoomUndoRestores(ops, c, a);
  }

  /** The same for the corrected fit-to-width constructor. */
  lemma ZoomToFitWidthCorrected(ops: CanvasOps, c: Canvas, fmt: real -> string)
    requires SetsZoomExactly(ops, c, ops.calculateZoomToFitWidth(c))
    requires SetsZoomExactly(ops, c.(zoom := ops.calculateZoomToFitWidth(c)), c.zoom)
    ensures NewZoomToFitWidthAsWritten(ops, c, fmt).Failure?
    ensures var a := NewZoomToFitWidthAction(ops, c, fmt);
      var c1 := PerformAll(ops, c, Execute(a).value);
      c1.zoom == ops.calculateZoomToFitWidth(c) && PerformAll(ops, c1, Undo(a).value) == c
  {
    var a := NewZoomToFitWidthAction(ops, c, fmt);
    ZoomUndoRestores(ops, c, a);
  }

  /** `set_zoom_level(z)` at `c` changes the zoom to exactly `z` and nothing else: no
      clamping applies. */
  predicate SetsZoomExactly(ops: CanvasOps, c: Canvas, z: real) {
    ops.setZoomLevel(c, z) == c.(zoom := z)
  }

  /** `pan(d)` at `c` moves the offset by exactly `d` and nothing else: no bounding applies. */
  predicate PansExactly(ops: CanvasOps, c: Canvas, d: Point) {
    ops.pan(c, d) == c.(offset := c.offset.Plus(d))
  }

  /** Pan: `execute` hands the construction-time delta to `pan`; `undo` subtracts that
      delta from whatever offset `pan` produced, without calling `pan`, then repaints;
      `redo` pans by the same delta again. So undo restores the canvas only when the pan
      was not bounded. */
  lemma {:induction false} PanUndoBypassesPan(ops: CanvasOps, c: Canvas, startPos: Point, endPos: Point)
    ensures var a := NewPanAction(startPos, endPos);
      var d := endPos.Minus(startPos);
      var c1 := PerformAll(ops, c, Execute(a).value);
      var c2 := PerformAll(ops, c1, Undo(a).value);
      && c1 == ops.pan(c, d)
      && c2 == c1.(offset := c1.offset.Minus(d))
      && Undo(a) == Success([SubtractOffset(d), Update])
      && Redo(a) == Success([Pan(d)])
      && (PansExactly(ops, c, d) ==> c2 == c)
  {
    var a := NewPanAction(startPos, endPos);
    var d := endPos.Minus(startPos);
    PerformOne(ops, c, Pan(d));
    var c1 := ops.pan(c, d);
    var c1' := c1.(offset := c1.offset.Minus(d));
    PerformAllAppend(ops, c1, [SubtractOffset(d)], [Update]);
    assert [SubtractOffset(d)] + [Update] == Undo(a).value;
    PerformOne(ops, c1, SubtractOffset(d));
    PerformOne(ops, c1', Update);
  }

  /** Zoom, fit-to-page and fit-to-width: `execute` (and so `redo`) sets the new zoom and
      `undo` sets the old one; when the action was built at the current zoom and both
      settings are exact, undo after execute gives back the original canvas. */
  lemma ZoomUndoRestores(ops: CanvasOps, c: Canvas, a: Action)
    requires a.kind.ZoomAction? || a.kind.ZoomToFitPageAction? || a.kind.ZoomToFitWidthAction?
    requires a.kind.oldZoom == c.zoom
    requires SetsZoomExactly(ops, c, a.kind.newZoom)
    requires SetsZoomExactly(ops, c.(zoom := a.kind.newZoom), a.kind.oldZoom)
    ensures Execute(a) == Redo(a) == Success([SetZoomLevel(a.kind.newZoom)])
    ensures Undo(a) == Success([SetZoomLevel(a.kind.oldZoom)])
    ensures var c1 := PerformAll(ops, c, Execute(a).value);
      c1.zoom == a.kind.newZoom && PerformAll(ops, c1, Undo(a).value) == c
  {
    PerformOne(ops, c, SetZoomLevel(a.kind.newZoom));
    PerformOne(ops, c.(zoom := a.kind.newZoom), SetZoomLevel(a.kind.oldZoom));
  }

  /** InitialZoom: `execute` updates the minimum zoom before setting the zoom captured
      at construction; `undo` raises whatever `can_undo` says. */
  lemma InitialZoomCalls(ops: CanvasOps, c: Canvas, fmt: real -> string)
    ensures var a := NewInitialZoomAction(ops, c, fmt);
      && Execute(a) == Success([UpdateMinZoomLevel, SetZoomLevel(ops.calculateInitialZoom(c))])
      && PerformAll(ops, c, Execute(a).value) ==
           ops.setZoomLevel(ops.updateMinZoomLevel(c), ops.calculateInitialZoom(c))
      && Undo(a) == Failure(NotImplementedError(""))
  {
    var z := ops.calculateInitialZoom(c);
    PerformAllAppend(ops, c, [UpdateMinZoomLevel], [SetZoomLevel(z)]);
    assert [UpdateMinZoomLevel] + [SetZoomLevel(z)] == [UpdateMinZoomLevel, SetZoomLevel(z)];
    PerformOne(ops, c, UpdateMinZoomLevel);
    PerformOne(ops, ops.updateMinZoomLevel(c), SetZoomLevel(z));
  }
}

=== FILE: decimal.dfy ===
/** Python's `str(int)`: decimal rendering of an integer, with a leading '-' for
    negative values, and the parser that inverts it. */
module Decimal {

  function DigitChar(d: nat): (c: char)
    requires d < 10
    ensures '0' <= c <= '9'
  {
    "0123456789"[d]
  }

  /** The value of a digit character; any other character counts as 0. */
  function DigitValue(c: char): (d: nat)
    ensures d < 10
  {
    if '0' <= c <= '9' then (c as int - '0' as int) as nat else 0
  }

  lemma DigitRoundTrip(d: nat)
    requires d < 10
    ensures DigitValue(DigitChar(d)) == d
  {
  }

  predicate IsDigits(s: string) {
    forall i :: 0 <= i < |s| ==> '0' <= s[i] <= '9'
  }

  /** Decimal digits of a natural number, most significant first, no leading zeros. */
  function NatToString(n: nat): (s: string)
    ensures |s| > 0 && IsDigits(s)
    ensures |s| > 1 ==> s[0] != '0'
    decreases n
  {
    if n < 10 then [DigitChar(n)] else NatToString(n / 10) + [DigitChar(n % 10)]
  }

  /** `str(n)` for an integer. */
  function IntToString(n: int): (s: string)
    ensures |s| > 0
    ensures n < 0 <==> s[0] == '-'
  {
    if n < 0 then "-" + NatToString(-n) else NatToString(n)
  }

  /** No rendering contains a comma. */
  lemma NoCommaInIntToString(n: int, i: nat)
    requires i < |IntToString(n)|
    ensures IntToString(n)[i] != ','
  {
    var s := IntToString(n);
    if n < 0 && i > 0 {
      assert s[i] == s[1..][i - 1];
    }
  }

  /** Value of a string of decimal digits. */
  function ParseNat(s: string): nat {
    if |s| == 0 then 0 else ParseNat(s[..|s| - 1]) * 10 + DigitValue(s[|s| - 1])
  }

  /** Value of an optionally '-'-prefixed string of decimal digits. */
  function ParseInt(s: string): int {
    if |s| > 0 && s[0] == '-' then -(ParseNat(s[1..]) as int) else ParseNat(s)
  }

  lemma {:induction false} NatRoundTrip(n: nat)
    ensures ParseNat(NatToString(n)) == n
    decreases n
  {
    var s := NatToString(n);
    if n < 10 {
      DigitRoundTrip(n);
    } else {
      NatRoundTrip(n / 10);
      DigitRoundTrip(n % 10);
      assert s[..|s| - 1] == NatToString(n / 10);
    }
  }

  lemma NegativeRoundTrip(m: nat)
    ensures ParseInt("-" + NatToString(m)) == -(m as int)
  {
    assert ("-" + NatToString(m))[1..] == NatToString(m);
    NatRoundTrip(m);
  }

  /** Every integer is recovered from its decimal rendering. */
  lemma IntRoundTrip(n: int)
    ensures ParseInt(IntToString(n)) == n
  {
    var s := IntToString(n);
    if n < 0 {
      var m: nat := -n;
      var t := NatToString(m);
      assert s == "-" + t;
      NegativeRoundTrip(m);
      assert ParseInt("-" + t) == n;
    } else {
      NatRoundTrip(n);
    }
  }

  /** Distinct integers render to distinct strings. */
  lemma IntToStringInjective(a: int, b: int)
    requires IntToString(a) == IntToString(b)
    ensures a == b
  {
    IntRoundTrip(a);
    IntRoundTrip(b);
  }
}

=== FILE: document_model.dfy ===
/** The document: its pages (decoded images, opaque here), the shapes saved for each
    page index, and the index of the page being shown. */
module Documents {
  import opened Wrappers
  import opened CanvasState

  /** A decoded page image. Only its identity matters to this model. */
  datatype Page = Page(id: nat)

  datatype DocumentModel = DocumentModel(pages: seq<Page>, annotations: map<int, seq<Shape>>,
                                         currentPageIndex: int)

  /** DocumentModel(): no pages, no annotations, index 0. */
  function NewDocumentModel(): (m: DocumentModel)
    ensures m.pages == [] && m.annotations == map[] && m.currentPageIndex == 0
  {
    DocumentModel([], map[], 0)
  }

  /** split_document_into_pages: the opened image becomes the document's only page. */
  function SplitDocumentIntoPages(image: Page): (pages: seq<Page>)
    ensures |pages| == 1 && pages[0] == image
  {
    [image]
  }

  /** load_document: replace the pages and go back to index 0. Saved annotations are
      kept, keyed by index, whatever document they were drawn on. */
  function LoadDocument(m: DocumentModel, image: Page): (r: DocumentModel)
    ensures r.pages == [image] && r.currentPageIndex == 0
    ensures r.annotations == m.annotations
  {
    m.(pages := SplitDocumentIntoPages(image), currentPageIndex := 0)
  }

  /** The index can be used with Python list indexing on the pages without raising
      IndexError (negative indices count from the end). */
  predicate IndexValid(m: DocumentModel) {
    |m.pages| == 0 || -|m.pages| <= m.currentPageIndex < |m.pages|
  }

  /** get_current_page: None for a document with no pages, otherwise the page at the
      index, with Python's negative indexing. */
  function GetCurrentPage(m: DocumentModel): (r: Option<Page>)
    requires IndexValid(m)
    ensures r.None? <==> |m.pages| == 0
    ensures r.Some? ==> r.value in m.pages
    ensures r.Some? && m.currentPageIndex >= 0 ==> r.value == m.pages[m.currentPageIndex]
    ensures r.Some? && m.currentPageIndex < 0 ==> r.value == m.pages[|m.pages| + m.currentPageIndex]
  {
    if |m.pages| == 0 then None
    else if m.currentPageIndex >= 0 then Some(m.pages[m.currentPageIndex])
    else Some(m.pages[|m.pages| + m.currentPageIndex])
  }

  /** `annotations.get(i, [])`: the shapes saved under index `i`, or none if nothing
      was ever saved there. */
  function AnnotationsAt(m: DocumentModel, i: int): (r: seq<Shape>)
    ensures i in m.annotations ==> r == m.annotations[i]
    ensures i !in m.annotations ==> r == []
  {
    if i in m.annotations then m.annotations[i] else []
  }

  /** get_current_annotations. */
  function GetCurrentAnnotations(m: DocumentModel): (r: seq<Shape>)
    ensures m.currentPageIndex in m.annotations ==> r == m.annotations[m.currentPageIndex]
    ensures m.currentPageIndex !in m.annotations ==> r == []
  {
    AnnotationsAt(m, m.currentPageIndex)
  }

  /** save_annotations(i, shapes): entry `i` now holds `shapes`; every other entry, the
      pages and the index are untouched. */
  function SaveAnnotations(m: DocumentModel, i: int, shapes: seq<Shape>): (r: DocumentModel)
    ensures AnnotationsAt(r, i) == shapes && i in r.annotations
    ensures r.annotations.Keys == m.annotations.Keys + {i}
    ensures forall j :: j != i ==> AnnotationsAt(r, j) == AnnotationsAt(m, j)
    ensures r.pages == m.pages && r.currentPageIndex == m.currentPageIndex
  {
    m.(annotations := m.annotations[i := shapes])
  }

  /** next_page: advance only while a later page exists. */
  function NextPage(m: DocumentModel): (r: DocumentModel)
    ensures m.currentPageIndex < |m.pages| - 1 ==> r == m.(currentPageIndex := m.currentPageIndex + 1)
    ensures m.currentPageIndex >= |m.pages| - 1 ==> r == m
  {
    if m.currentPageIndex < |m.pages| - 1 then m.(currentPageIndex := m.currentPageIndex + 1) else m
  }

  /** prev_page: go back only while the index is positive. */
  function PrevPage(m: DocumentModel): (r: DocumentModel)
    ensures m.currentPageIndex > 0 ==> r == m.(currentPageIndex := m.currentPageIndex - 1)
    ensures m.currentPageIndex <= 0 ==> r == m
  {
    if m.currentPageIndex > 0 then m.(currentPageIndex := m.currentPageIndex - 1) else m
  }

  /** first_page: only the index changes, and it lands on the first page. */
  function FirstPage(m: DocumentModel): (r: DocumentModel)
    ensures r.pages == m.pages && r.annotations == m.annotations
    ensures IsFirstPage(r)
    ensures |m.pages| > 0 ==> InBounds(r) && r.pages[r.currentPageIndex] == m.pages[0]
  {
    m.(currentPageIndex := 0)
  }

  /** last_page: the index of the last page, which is -1 for a document with no pages. */
  function LastPage(m: DocumentModel): (r: DocumentModel)
    ensures r.pages == m.pages && r.annotations == m.annotations
    ensures |m.pages| == 0 ==> r.currentPageIndex == -1
    ensures |m.pages| > 0 ==> 0 <= r.currentPageIndex < |r.pages| && r.pages[r.currentPageIndex] == m.pages[|m.pages| - 1]
  {
    m.(currentPageIndex := |m.pages| - 1)
  }

  /** is_first_page: prev_page has nowhere to go, and the page shown is the first. */
  function IsFirstPage(m: DocumentModel): (b: bool)
    ensures b ==> PrevPage(m) == m
    ensures b && |m.pages| > 0 ==> IndexValid(m) && GetCurrentPage(m) == Some(m.pages[0])
  {
    m.currentPageIndex == 0
  }

  /** is_last_page: next_page has nowhere to go, and the page shown is the last; a
      document without pages is "on its last page" only at index -1. */
  function IsLastPage(m: DocumentModel): (b: bool)
    ensures b ==> NextPage(m) == m
    ensures b && |m.pages| > 0 ==> IndexValid(m) && GetCurrentPage(m) == Some(m.pages[|m.pages| - 1])
    ensures b && |m.pages| == 0 ==> m.currentPageIndex == -1
  {
    m.currentPageIndex == |m.pages| - 1
  }

  /** The index names a page. */
  predicate InBounds(m: DocumentModel) {
    0 <= m.currentPageIndex < |m.pages|
  }

  /** The states a document can be in: with no pages the index is 0 (fresh) or -1
      (after last_page); with pages it names one of them. */
  predicate Reachable(m: DocumentModel) {
    if |m.pages| == 0 then m.currentPageIndex == 0 || m.currentPageIndex == -1 else InBounds(m)
  }

  /** Saved shapes read back: what was saved under the current index is what
      get_current_annotations returns, until the next save there. */
  lemma SaveThenGet(m: DocumentModel, shapes: seq<Shape>)
    ensures GetCurrentAnnotations(SaveAnnotations(m, m.currentPageIndex, shapes)) == shapes
  {
  }

  /** With pages, navigation keeps the index on a page. */
  lemma NavigationKeepsInBounds(m: DocumentModel)
    requires |m.pages| > 0 && InBounds(m)
    ensures InBounds(NextPage(m)) && InBounds(PrevPage(m))
    ensures InBounds(FirstPage(m)) && InBounds(LastPage(m))
  {
  }

  /** Every model operation keeps a reachable state reachable, and reachable states
      never make get_current_page raise. */
  lemma ModelOperationsKeepReachable(m: DocumentModel, image: Page, i: int, shapes: seq<Shape>)
    requires Reachable(m)
    ensures IndexValid(m)
    ensures Reachable(NextPage(m)) && Reachable(PrevPage(m))
    ensures Reachable(FirstPage(m)) && Reachable(LastPage(m))
    ensures Reachable(LoadDocument(m, image)) && Reachable(SaveAnnotations(m, i, shapes))
  {
  }

  /** Stepping forward then back (or back then forward) returns to the same model when
      the first step takes effect. */
  lemma NextPrevInverse(m: DocumentModel)
    ensures 0 <= m.currentPageIndex < |m.pages| - 1 ==> PrevPage(NextPage(m)) == m
    ensures 0 < m.currentPageIndex < |m.pages| ==> NextPage(PrevPage(m)) == m
  {
  }

  /** next_page moves exactly when the model is not on its last page (for an index on
      a page); prev_page moves exactly when it is not on its first. */
  lemma GuardsMatchPredicates(m: DocumentModel)
    requires InBounds(m)
    ensures NextPage(m) == m <==> IsLastPage(m)
    ensures PrevPage(m) == m <==> IsFirstPage(m)
    ensures IsFirstPage(FirstPage(m)) && IsLastPage(LastPage(m))
  {
  }
}

=== FILE: history_laws.dfy ===
/** Laws of the undo/redo engine that relate several calls: undo and redo are inverse,
    history is conserved, the log only grows, and `track_undo`/`track_all` decide what
    can ever reach the stacks. */
module HistoryLaws {
  import opened Wrappers
  import opened CanvasState
  import opened UserActions
  import opened ActionManager
  import ShapeActions

  /** One user request to the manager. */
  datatype Request = DoRequest(action: Action) | UndoRequest | RedoRequest

  function Handle(m: Manager, req: Request): Step {
    match req
    case DoRequest(a) => DoAction(m, a)
    case UndoRequest => ActionManager.Undo(m)
    case RedoRequest => ActionManager.Redo(m)
  }

  /** A sequence of requests, in order. An exception propagates out of the handler, so
      the run stops at the first one. */
  function Run(m: Manager, reqs: seq<Request>): Step
    decreases |reqs|
  {
    if |reqs| == 0 then Step(m, [], None)
    else
      var s := Handle(m, reqs[0]);
      if s.raised.Some? then s
      else
        var rest := Run(s.manager, reqs[1..]);
        Step(rest.manager, s.calls + rest.calls, rest.raised)
  }

  /** A successful undo followed by redo puts both stacks back as they were, logs the
      two entries, and replays the action's `execute`. */
  lemma UndoThenRedoRestores(m: Manager)
    requires |m.undoStack| > 0
    requires UserActions.Undo(Top(m.undoStack)).Success?
    ensures var a := Top(m.undoStack);
      var s2 := ActionManager.Redo(ActionManager.Undo(m).manager);
      && s2.raised == None
      && s2.manager.undoStack == m.undoStack
      && s2.manager.redoStack == m.redoStack
      && s2.manager.actionLog == m.actionLog + ["Undone: " + a.description, "Redone: " + a.description]
      && s2.calls == Execute(a).value
  {
    var a := Top(m.undoStack);
    var m1 := ActionManager.Undo(m).manager;
    assert Top(m1.redoStack) == a;
    assert Pop(m1.redoStack) == m.redoStack;
    assert Pop(m.undoStack) + [a] == m.undoStack;
  }

  /** A successful redo followed by undo puts both stacks back as they were. */
  lemma RedoThenUndoRestores(m: Manager)
    requires |m.redoStack| > 0
    requires UserActions.Undo(Top(m.redoStack)).Success?
    ensures var a := Top(m.redoStack);
      var s2 := ActionManager.Undo(ActionManager.Redo(m).manager);
      && s2.raised == None
      && s2.manager.undoStack == m.undoStack
      && s2.manager.redoStack == m.redoStack
      && s2.manager.actionLog == m.actionLog + ["Redone: " + a.description, "Undone: " + a.description]
  {
    var a := Top(m.redoStack);
    var m1 := ActionManager.Redo(m).manager;
    assert Top(m1.undoStack) == a;
    assert Pop(m1.undoStack) == m.undoStack;
    assert Pop(m.redoStack) + [a] == m.redoStack;
  }

  /** Undo and redo never create or duplicate history: |undo| + |redo| is unchanged
      unless the action raised, in which case it was dropped; the log grows by one
      exactly when the call took effect. */
  lemma UndoRedoConserveHistory(m: Manager)
    ensures var s := ActionManager.Undo(m);
      && |s.manager.undoStack| + |s.manager.redoStack|
           == |m.undoStack| + |m.redoStack| - (if s.raised.Some? then 1 else 0)
      && |s.manager.actionLog| == |m.actionLog| + (if |m.undoStack| > 0 && s.raised.None? then 1 else 0)
    ensures var s := ActionManager.Redo(m);
      && |s.manager.undoStack| + |s.manager.redoStack|
           == |m.undoStack| + |m.redoStack| - (if s.raised.Some? then 1 else 0)
      && |s.manager.actionLog| == |m.actionLog| + (if |m.redoStack| > 0 && s.raised.None? then 1 else 0)
  {
  }

  /** The log is append-only over any run, and grows by at most one entry per request. */
  lemma {:induction false} RunLogAppendOnly(m: Manager, reqs: seq<Request>)
    ensures var s := Run(m, reqs);
      && m.actionLog <= s.manager.actionLog
      && |s.manager.actionLog| <= |m.actionLog| + |reqs|
      && s.manager.trackAll == m.trackAll
    decreases |reqs|
  {
    if |reqs| > 0 {
      var s := Handle(m, reqs[0]);
      if s.raised.None? {
        RunLogAppendOnly(s.manager, reqs[1..]);
      }
    }
  }

  /** Without `track_all`, only actions that track themselves are on either stack. */
  ghost predicate TrackedOnly(m: Manager) {
    !m.trackAll ==>
      (forall i :: 0 <= i < |m.undoStack| ==> m.undoStack[i].trackUndo) &&
      (forall i :: 0 <= i < |m.redoStack| ==> m.redoStack[i].trackUndo)
  }

  lemma HandlePreservesTrackedOnly(m: Manager, req: Request)
    requires TrackedOnly(m)
    ensures TrackedOnly(Handle(m, req).manager)
    ensures Handle(m, req).manager.trackAll == m.trackAll
  {
  }

  /** Every state reached from a fresh untracking manager keeps untracked actions (all
      the navigation actions) off both stacks. */
  lemma {:induction false} RunPreservesTrackedOnly(m: Manager, reqs: seq<Request>)
    requires TrackedOnly(m)
    ensures TrackedOnly(Run(m, reqs).manager)
    decreases |reqs|
  {
    if |reqs| > 0 {
      var s := Handle(m, reqs[0]);
      HandlePreservesTrackedOnly(m, reqs[0]);
      if s.raised.None? {
        RunPreservesTrackedOnly(s.manager, reqs[1..]);
      }
    }
  }

  lemma NoActionReachesStacksUntracked(reqs: seq<Request>)
    ensures TrackedOnly(Run(NewManager(), reqs).manager)
    ensures !Run(NewManager(), reqs).manager.trackAll
  {
    RunPreservesTrackedOnly(NewManager(), reqs);
    RunLogAppendOnly(NewManager(), reqs);
  }

  /** After a tracked action has run, there is nothing to redo: the earlier redo
      history was discarded. */
  lemma RedoAfterTrackedIsNoOp(m: Manager, a: Action)
    requires Execute(a).Success? && (a.trackUndo || m.trackAll)
    ensures var m1 := DoAction(m, a).manager;
      ActionManager.Redo(m1) == Step(m1, [], None)
  {
  }

  /** With `track_all`, an InitialZoom is pushed; undoing it pops it and then raises, so
      it is on neither stack afterwards and only its execution was logged. */
  lemma InitialZoomLostOnUndo(m: Manager, a: Action)
    requires m.trackAll && a.kind.InitialZoomAction?
    ensures var s1 := DoAction(m, a);
      var s2 := ActionManager.Undo(s1.manager);
      && s1.manager.undoStack == m.undoStack + [a]
      && s2.raised == Some(NotImplementedError(""))
      && s2.manager.undoStack == m.undoStack
      && s2.manager.redoStack == []
      && s2.manager.actionLog == m.actionLog + ["Executed: " + a.description]
  {
    assert Pop(m.undoStack + [a]) == m.undoStack;
  }

  /** `can_undo` is never consulted by do_action: two actions that differ only in it
      lead to the same log, the same canvas calls, the same exception and the same stack
      depths. */
  lemma CanUndoIgnoredByDo(m: Manager, a: Action, canUndo: bool)
    ensures var s, t := DoAction(m, a), DoAction(m, a.(canUndo := canUndo));
      && s.manager.actionLog == t.manager.actionLog && s.calls == t.calls && s.raised == t.raised
      && |s.manager.undoStack| == |t.manager.undoStack| && |s.manager.redoStack| == |t.manager.redoStack|
  {
  }

  /** Nor by undo: whether the top action claims to be undoable changes nothing about
      what undo does with it. */
  lemma CanUndoIgnoredByUndo(m: Manager, a: Action, canUndo: bool)
    ensures var s, t := ActionManager.Undo(m.(undoStack := m.undoStack + [a])),
                        ActionManager.Undo(m.(undoStack := m.undoStack + [a.(canUndo := canUndo)]));
      && s.manager.actionLog == t.manager.actionLog && s.calls == t.calls && s.raised == t.raised
      && s.manager.undoStack == t.manager.undoStack && |s.manager.redoStack| == |t.manager.redoStack|
  {
    assert Pop(m.undoStack + [a]) == m.undoStack;
    assert Pop(m.undoStack + [a.(canUndo := canUndo)]) == m.undoStack;
  }

  /** Drawing a shape, undoing it and redoing it, from any history: the canvas sees
      add_shape, remove_shape, add_shape on that same shape; after the undo the earlier
      undo stack is back and only the drawing is pending redo (the earlier redo history
      was cleared by the drawing), and after the redo the action is on
      top of the undo stack with nothing to redo. */
  lemma DrawShapeDoUndoRedo(m: Manager, shape: Shape)
    ensures var a := ShapeActions.NewDrawShapeAction(shape);
      var t1 := DoAction(m, a);
      var t2 := ActionManager.Undo(t1.manager);
      var t3 := ActionManager.Redo(t2.manager);
      && t1.raised == t2.raised == t3.raised == None
      && t1.calls + t2.calls + t3.calls == [AddShape(shape), RemoveShape(shape), AddShape(shape)]
      && t2.manager.undoStack == m.undoStack && t2.manager.redoStack == [a]
      && t3.manager.undoStack == m.undoStack + [a] && t3.manager.redoStack == []
  {
    var a := ShapeActions.NewDrawShapeAction(shape);
    var m1 := DoAction(m, a).manager;
    assert Pop(m1.undoStack) == m.undoStack;
  }

  /** Two shapes drawn, two undos, two redos on a fresh manager. Nothing raises; one
      undo leaves only the first drawing on the undo stack, two leave it empty, and two
      redos bring back both in order. The canvas is asked to add s1, add s2, remove s2,
      remove s1, add s1, add s2 (DrawTwoCanvas follows the canvas through these calls). */
  lemma DrawTwoUndoTwoRedoTwo(s1: Shape, s2: Shape)
    ensures var a1, a2 := ShapeActions.NewDrawShapeAction(s1), ShapeActions.NewDrawShapeAction(s2);
      var t1 := DoAction(NewManager(), a1);
      var t2 := DoAction(t1.manager, a2);
      var t3 := ActionManager.Undo(t2.manager);
      var t4 := ActionManager.Undo(t3.manager);
      var t5 := ActionManager.Redo(t4.manager);
      var t6 := ActionManager.Redo(t5.manager);
      && t1.raised == t2.raised == t3.raised == t4.raised == t5.raised == t6.raised == None
      && t3.manager.undoStack == [a1] && t3.manager.redoStack == [a2]
      && t4.manager.undoStack == [] && t4.manager.redoStack == [a2, a1]
      && t6.manager.undoStack == [a1, a2] && t6.manager.redoStack == []
      && t1.calls + t2.calls + t3.calls + t4.calls + t5.calls + t6.calls
           == [AddShape(s1), AddShape(s2), RemoveShape(s2), RemoveShape(s1), AddShape(s1), AddShape(s2)]
  {
    var a1, a2 := ShapeActions.NewDrawShapeAction(s1), ShapeActions.NewDrawShapeAction(s2);
    var m1 := DoAction(NewManager(), a1).manager;
    assert m1.undoStack == [a1] && m1.redoStack == [];
    var m2 := DoAction(m1, a2).manager;
    assert m2.undoStack == [a1, a2] && m2.redoStack == [];
    var m3 := ActionManager.Undo(m2).manager;
    assert m3.undoStack == [a1] && m3.redoStack == [a2];
    var m4 := ActionManager.Undo(m3).manager;
    assert m4.undoStack == [] && m4.redoStack == [a2, a1];
    var m5 := ActionManager.Redo(m4).manager;
    assert m5.undoStack == [a1] && m5.redoStack == [a2];
  }

  /** The canvas side of DrawTwoUndoTwoRedoTwo: when removing a just-added shape gives
      back the canvas it was added to, the canvas is after-both-draws after two calls,
      after-first-draw after one undo, back at the start after two undos, and
      after-both-draws again at the end. */
  lemma DrawTwoCanvas(ops: CanvasOps, c0: Canvas, s1: Shape, s2: Shape, calls: seq<CanvasCall>)
    requires ops.removeShape(ops.addShape(c0, s1), s1) == c0
    requires ops.removeShape(ops.addShape(ops.addShape(c0, s1), s2), s2) == ops.addShape(c0, s1)
    requires calls == [AddShape(s1), AddShape(s2), RemoveShape(s2), RemoveShape(s1), AddShape(s1), AddShape(s2)]
    ensures var c1 := ops.addShape(c0, s1);
      var c2 := ops.addShape(c1, s2);
      && PerformAll(ops, c0, calls[..2]) == c2
      && PerformAll(ops, c0, calls[..3]) == c1
      && PerformAll(ops, c0, calls[..4]) == c0
      && PerformAll(ops, c0, calls) == c2
  {
    var c1 := ops.addShape(c0, s1);
    var c2 := ops.addShape(c1, s2);
    PerformOne(ops, c0, AddShape(s1));
    PerformOne(ops, c1, AddShape(s2));
    PerformOne(ops, c2, RemoveShape(s2));
    PerformOne(ops, c1, RemoveShape(s1));
    assert calls[..2] == [AddShape(s1)] + [AddShape(s2)];
    PerformAllAppend(ops, c0, [AddShape(s1)], [AddShape(s2)]);
    assert calls[..3] == calls[..2] + [RemoveShape(s2)];
    PerformAllAppend(ops, c0, calls[..2], [RemoveShape(s2)]);
    assert calls[..4] == calls[..3] + [RemoveShape(s1)];
    PerformAllAppend(ops, c0, calls[..3], [RemoveShape(s1)]);
    assert calls == calls[..4] + calls[..2];
    PerformAllAppend(ops, c0, calls[..4], calls[..2]);
  }
}

=== FILE: shape_actions.dfy ===
/** DrawShapeAction: the one content edit, undoable and tracked by default. */
module ShapeActions {
  import opened Wrappers
  import opened CanvasState
  import opened UserActions

  /** DrawShapeAction(canvas, shape): base defaults, so `track_undo` is true. */
  function NewDrawShapeAction(shape: Shape): (a: Action)
    ensures a.kind == DrawShapeAction(shape)
    ensures a.description == "Draw shape: " + shape.repr
    ensures a.canUndo && a.trackUndo
  {
    NewAction(DrawShapeAction(shape), "Draw shape: " + shape.repr)
  }

  /** `execute` adds the stored shape, `undo` removes that same shape, `redo` adds it
      again; when removing a just-added shape gives back the canvas it was added to,
      undo inverts execute and redo lands on the state execute produced. */
  lemma DrawShapeUndoRedo(ops: CanvasOps, c: Canvas, shape: Shape)
    ensures var a := NewDrawShapeAction(shape);
      && Execute(a) == Success([AddShape(shape)])
      && Undo(a) == Success([RemoveShape(shape)])
      && Redo(a) == Execute(a)
    ensures var a := NewDrawShapeAction(shape);
      var c1 := PerformAll(ops, c, Execute(a).value);
      var c2 := PerformAll(ops, c1, Undo(a).value);
      && c1 == ops.addShape(c, shape)
      && c2 == ops.removeShape(c1, shape)
      && (ops.removeShape(ops.addShape(c, shape), shape) == c ==>
            c2 == c && PerformAll(ops, c2, Redo(a).value) == c1)
  {
    var c1 := ops.addShape(c, shape);
    PerformOne(ops, c, AddShape(shape));
    PerformOne(ops, c1, RemoveShape(shape));
    PerformOne(ops, ops.removeShape(c1, shape), AddShape(shape));
  }
}

=== FILE: user_action.dfy ===
/** The command abstraction: a user action with a description, the `can_undo` and
    `track_undo` flags, and one of the closed set of variants. `Execute`, `Undo` and
    `Redo` give the canvas calls an action makes, or the exception it raises. */
module UserActions {
  import opened Wrappers
  import opened CanvasState

  /** The exceptions raised by the modelled code. */
  datatype Error =
    | NotImplementedError(message: string)
    | AttributeError(message: string)

  /** Which class the action is, with the data it captured at construction. */
  datatype Kind =
    | UserAction                                          // the base class itself
    | PanAction(startPos: Point, endPos: Point, offsetDelta: Point)
    | ZoomAction(oldZoom: real, newZoom: real)
    | InitialZoomAction(initialZoom: real)
    | ZoomToFitPageAction(oldZoom: real, newZoom: real)
    | ZoomToFitWidthAction(oldZoom: real, newZoom: real)
    | DrawShapeAction(shape: Shape)

  datatype Action = Action(description: string, canUndo: bool, trackUndo: bool, kind: Kind)

  /** The base constructor: the description is kept verbatim and both flags default
      to true. */
  function NewAction(kind: Kind, description: string, canUndo: bool := true, trackUndo: bool := true): (a: Action)
    ensures a.description == description && a.kind == kind
    ensures a.canUndo == canUndo && a.trackUndo == trackUndo
  {
    Action(description, canUndo, trackUndo, kind)
  }

  /** A bare `UserAction(description)`. */
  function NewUserAction(description: string, canUndo: bool := true, trackUndo: bool := true): (a: Action)
    ensures a.description == description && a.kind.UserAction?
    ensures a.canUndo == canUndo && a.trackUndo == trackUndo
  {
    NewAction(UserAction, description, canUndo, trackUndo)
  }

  /** The canvas calls `execute` makes. Only the base class raises (NotImplementedError
      with no message); every variant overrides `execute`. */
  function Execute(a: Action): (r: Result<seq<CanvasCall>, Error>)
    ensures r.Failure? <==> a.kind.UserAction?
    ensures r.Failure? ==> r.error == NotImplementedError("")
    ensures r.Success? ==> |r.value| > 0
  {
    match a.kind
    case UserAction => Failure(NotImplementedError(""))
    case PanAction(_, _, delta) => Success([Pan(delta)])
    case ZoomAction(_, newZoom) => Success([SetZoomLevel(newZoom)])
    case InitialZoomAction(initialZoom) => Success([UpdateMinZoomLevel, SetZoomLevel(initialZoom)])
    case ZoomToFitPageAction(_, newZoom) => Success([SetZoomLevel(newZoom)])
    case ZoomToFitWidthAction(_, newZoom) => Success([SetZoomLevel(newZoom)])
    case DrawShapeAction(shape) => Success([AddShape(shape)])
  }

  /** The canvas calls `undo` makes. The base class and InitialZoomAction, which does
      not override `undo`, raise NotImplementedError; `can_undo` plays no part. */
  function Undo(a: Action): (r: Result<seq<CanvasCall>, Error>)
    ensures r.Failure? <==> (a.kind.UserAction? || a.kind.InitialZoomAction?)
    ensures r.Failure? ==> r.error == NotImplementedError("")
    ensures r.Success? ==> Execute(a).Success?
  {
    match a.kind
    case UserAction => Failure(NotImplementedError(""))
    case InitialZoomAction(_) => Failure(NotImplementedError(""))
    case PanAction(_, _, delta) => Success([SubtractOffset(delta), Update])
    case ZoomAction(oldZoom, _) => Success([SetZoomLevel(oldZoom)])
    case ZoomToFitPageAction(oldZoom, _) => Success([SetZoomLevel(oldZoom)])
    case ZoomToFitWidthAction(oldZoom, _) => Success([SetZoomLevel(oldZoom)])
    case DrawShapeAction(shape) => Success([RemoveShape(shape)])
  }

  /** The default `redo` re-runs `execute`; PanAction's own `redo` does the same. */
  function Redo(a: Action): (r: Result<seq<CanvasCall>, Error>)
    ensures r == Execute(a)
  {
    Execute(a)
  }

  const UndoNotSupportedPrefix := "Undo functionality not supported for action "

  /** `undo_not_supported`: always raises NotImplementedError whose message is the fixed
      prefix followed by the description in double quotes, so the description can be
      read back out of the message. */
  function UndoNotSupported(a: Action): (r: Result<seq<CanvasCall>, Error>)
    ensures r.Failure? && r.error.NotImplementedError?
    ensures var msg, n := r.error.message, |UndoNotSupportedPrefix|;
      && |msg| == n + |a.description| + 2
      && msg[..n] == UndoNotSupportedPrefix
      && msg[n] == '"' && msg[|msg| - 1] == '"'
      && msg[n + 1..|msg| - 1] == a.description
  {
    Failure(NotImplementedError(UndoNotSupportedPrefix + "\"" + a.description + "\""))
  }
}

=== FILE: wrappers.dfy ===
/** Option and Result types used to model Python's `None` and raised exceptions. */
module Wrappers {

  datatype Option<+T> = None | Some(value: T)

  datatype Result<+R, +E> = Success(value: R) | Failure(error: E)
}
